=== FILE: README.md ===
# Shipping label generator, modelled in Dafny

The program reads an INI configuration and a CSV file of shipping rows. For
each row it composes a label: a copy of a master template image, a QR code and
an EAN-13 barcode pasted at configured positions, and the row's multi-line
text drawn at a configured position. It saves each label as
`<barcode_data>.png` in an output folder. This project models its core in
`main.py`:

- `ConfigLoader`: `get`, `get_tuple`, `get_int`, `get_boolean`.
- Start-up of `ShippingLabelGenerator`: settings, font, template, output
  folder.
- The clearing rule of `prepare_output_folder`.
- `create_shipping_label`: escape decoding, text layout, output file name.
- `process_csv` and `main`: rows in order, the first failure aborts the run.

Modules, one per file:

- `Wrappers` (wrappers.dfy): `Option`, `Result`, and the all-or-nothing map
  behind `tuple(map(int, …))`.
- `Errors` (errors.dfy): each exception the program can raise, as one
  datatype.
- `Strings` (strings.dfy): `str.split` on one character, `join`, the
  whitespace `int()` skips, and `lower` on ASCII.
- `Numerals` (numerals.dfy): `int()` on text, and `str()` as its partner.
- `Config` (config.dfy): the configparser lookup and the four accessors.
- `Text` (text.dfy): turning backslash-`n` into a newline, and
  `draw_multiline_text`.
- `OutputFolder` (folder.dfy): `prepare_output_folder`.
- `Labels` (labels.dfy): settings, start-up, `create_shipping_label`, and
  the output path.
- `Batch` (batch.dfy): `process_csv` as a fold and as the loop itself, plus
  `main`.

How the outside world is represented:

- Calls into Pillow, qrcode and python-barcode are the function-valued
  fields of `Labels.Env`, and each one may fail. The foreign behaviour
  covered is:
  - the font's bounding box;
  - opening the template;
  - the two encoders, including their resize;
  - whether a paste is accepted;
  - whether a save succeeds.
- The output folder is a map from entry name to entry kind.
- Deletions the operating system refuses are given as a set of names.
- The labels a run saves are a map from path to label. This map is kept
  apart from the folder listing.
- The CSV input is the sequence of rows the reader yields, plus the error it
  raises after them, if any.

## Model

| member | source | states |
|---|---|---|
| `Wrappers.MapAll` | main.py:31 | converting every field either gives one value per field, in field order, or fails with the first field that does not convert; there is never a partial result |
| `Strings.Split` | main.py:31 | `split` on one character gives one piece more than the separator occurs, and no piece contains the separator |
| `Strings.JoinSplit` | main.py:61 | joining the pieces of a split with the separator gives back the original text |
| `Strings.SplitJoin` | main.py:31 | splitting separator-free pieces joined by the separator gives back exactly those pieces |
| `Strings.StripSlice` | main.py:31 | the whitespace `int()` skips (space and `\t \n \v \f \r`, but not 0x1C..0x1F) is removed only at the ends, leaving one contiguous middle slice |
| `Strings.StripPadded` | main.py:31 | skipping removes any padding of `int()` whitespace around a text that neither begins nor ends with whitespace |
| `Strings.Lower` | main.py:23 | lower-casing an option name keeps its length and maps every character by itself |
| `Numerals.ParseInt` | main.py:31 | `int()` on one field, also reached through `getint` at main.py:38: an accepted field holds a digit and otherwise only digits, signs, underscores and whitespace; `ParseShow` and `ParseShowExact` show that it reads back whatever `str()` writes, with or without surrounding whitespace |
| `Numerals.ParseShow` | main.py:31 | `int()` reads back every integer written in decimal, with or without surrounding whitespace |
| `Numerals.ParseShowExact` | main.py:31 | `int(str(n)) == n` for every integer `n` |
| `Numerals.ParseIntRejects` | main.py:31 | `int()` accepts a field only if it holds a digit and otherwise only digits, signs, underscores and whitespace |
| `Config.Get` | main.py:21-26 | a missing section or option is an error; the value is the section's own (already interpolated) one, else the `[DEFAULT]` one; no other option's value is ever substituted |
| `Config.GetIgnoresOptionCase` | main.py:23 | looking up an option ignores its case |
| `Config.GetTuple` | main.py:28-34 | errors from `get` pass through; otherwise there is one integer per comma-separated field (commas plus one, with no arity check), each the field's `int()`; it fails exactly when a field is rejected, naming the first one, and never yields a partial tuple |
| `Config.GetTupleReadsBack` | main.py:28-34 | a tuple option written as comma-separated decimals reads back as exactly those integers |
| `Config.GetInt` | main.py:36-41 | errors from `get` pass through; otherwise the result is the value's `int()`, or the not-an-integer error |
| `Config.GetBoolean` | main.py:43-48 | the result is true exactly for the lower-cased words 1/yes/true/on, and false exactly for 0/no/false/off; any other value is an error |
| `Text.Unescape` | main.py:150 | no backslash-`n` pair is left after decoding, the text never grows, and the first character is kept or becomes a newline |
| `Text.UnescapeEscape` | main.py:150 | decoding inverts escaping for every text without a literal backslash-`n` |
| `Text.EscapeUnescape` | main.py:150 | for a field without raw newlines, escaping the decoded field gives back the field: every backslash-`n` pair, and nothing else, became a newline |
| `Text.UnescapeIdentity` | main.py:150 | a field without a backslash-`n` pair is left unchanged |
| `Text.UnescapeConcat` | main.py:150 | for any two pieces with no pair across the seam, decoding their concatenation gives the concatenation of their decodings; every other character is kept in order |
| `Text.UnescapeKeepsLineBreaks` | main.py:150 | a real line break in a field is kept, and the text on either side of it is decoded independently |
| `Text.Layout` | main.py:63-66 | one draw per line, in order; line `i` is drawn at `x` and at `y` plus `i` line heights |
| `Text.DrawMultilineText` | main.py:60-69 | it fails exactly when the position does not have two parts; otherwise it draws newline count plus one lines, all at `x`, line `i` at `y0 + i * line_height`, none containing a newline |
| `Text.DrawnLinesRejoin` | main.py:60-66 | the drawn lines joined by newlines are the whole text |
| `OutputFolder.ClearFolder` | main.py:136-144 | whatever the listing order, the folder afterwards and the swallowed failures equal the reference definitions `Cleared` and `Failures` |
| `OutputFolder.PrepareOutputFolder` | main.py:133-144 | a missing folder is created empty; the folder is cleared only when the flag is set |
| `OutputFolder.ClearingKeepsOnlyWhatCannotGo` | main.py:135-144 | clearing adds and changes nothing; a file, link or empty directory remains exactly when its deletion is refused; non-empty directories and other entries always remain |
| `Labels.LoadSettings` | main.py:96-110 | reading the settings succeeds exactly when all eleven accessor calls succeed, and then holds exactly their values; otherwise it fails with the error of the first failing call, in source order |
| `Labels.LoadResources` | main.py:112-131 | start-up succeeds exactly when both the font and the template load; the line height is the font box bottom plus 2; a font failure is reported before the template is opened |
| `Labels.Start` | main.py:94-115 | the settings are resolved completely before the font or template is used; a settings error ends start-up with that error; once the settings load, start-up gives exactly what loading the font and then the template gives, success included |
| `Labels.CreateLabelFailsAtFirstFailingStep` | main.py:148-163 | a complete row fails with the error of its first failing step: QR encoding, barcode encoding, QR paste, barcode paste, position unpacking, save |
| `Labels.OutputPath` | main.py:162 | the file name is the barcode value plus `.png` and ends the path; an absolute barcode value is the whole path and the folder is dropped; otherwise the path is the folder, one `/` only when the folder is non-empty and does not already end with one, then the file name; `OutputPathInjective` shows distinct relative values give distinct paths |
| `Labels.OutputPathInjective` | main.py:162 | relative barcode values that differ give different output path strings |
| `Labels.CreateLabel` | main.py:146-167 | missing columns are reported in the order qr, barcode, text; a successful row's label is saved under the folder joined with the barcode value plus `.png`, and holds the template, the two encoded images at their boxes, and the decoded text laid out at the text position; it fails whenever the text position does not have two parts |
| `Labels.CreateLabelSucceedsIff` | main.py:146-167 | a row succeeds exactly when all three columns are present, both encoders succeed, both pastes are accepted, the text position has two parts, and the save succeeds |
| `Batch.Run` | main.py:182-188 | the run ends after all rows only if the reader raised no error; if it stops at a row, that row failed with the reported error |
| `Batch.Succeeding` | main.py:184-185 | reference definition: the labels of the longest prefix of rows that all succeed, and the row after it fails |
| `Batch.ApplyLastWins` | main.py:162-163 | a file holds the last label saved to it |
| `Batch.ApplyUntouched` | main.py:162-163 | a file no label is saved to keeps its contents, or stays absent |
| `Batch.ApplyOnlyWritesTargets` | main.py:162-163 | saving labels creates no files other than their targets |
| `Batch.RunWritesSucceedingPrefix` | main.py:182-188 | the run saves exactly the labels of the longest successful prefix, in row order; it ends with the first failing row's error, else the reader's error, else completion |
| `Batch.LastWriterWins` | main.py:182-185 | after the run, a processed row's file holds that row's label unless a later processed row saved to the same file |
| `Batch.SameBarcodeOverwrites` | main.py:162-163 | two successful rows with the same barcode value leave one file, holding the later row's label |
| `Batch.NothingAfterFailure` | main.py:182-188 | rows after a failing row change nothing: neither the files nor the outcome |
| `Batch.ProcessCsv` | main.py:182-188 | the loop over rows equals the fold `Run` |
| `Batch.RunGenerator` | main.py:133-188 | once the generator is built, the output folder is cleared (or not) exactly as the flag says, and the saved labels and the outcome are those of the run over every row, starting from no saved labels |
| `Batch.Generate` | main.py:190-196 | a start-up failure leaves the folder untouched, saves no label, and is the outcome; otherwise the folder is prepared as the flag says and the rows are processed, as for `RunGenerator` |

Behaviour of the code that a reader might not expect, as modelled:

- `Config.GetTuple`: `get_tuple` does not check how many fields there
  are. A text position with the wrong number of parts fails at
  `x, y = position` in `draw_multiline_text`, as `UnpackError`. The QR and
  barcode positions are the boxes passed to `paste`, which runs before the
  text is drawn. Whether Pillow accepts a box of another length is
  `Env.pasteAccepts`; a refused box ends the row with `PasteError`. A size
  with the wrong number of parts would fail inside Pillow's resize, which
  is inside `Env.qrCode` and `Env.barcode`.
- A field that `int()` rejects raises `ValueError`. This is modelled as
  `NotAnInteger`.
- `Batch.Generate`: `main` catches every exception, prints it, and
  returns normally, so a failed run still exits with a success status.
  The model reports the outcome as a value and does not model exit
  statuses.
- `Labels.OutputPathInjective`: `os.path.join` drops the folder when the
  barcode value starts with `/`. A relative and an absolute barcode value
  can therefore name the same file. The lemma is stated for relative
  values only.

## Left out

- Reading and parsing the INI file is left out. This includes
  configparser's syntax and duplicate-section errors. `Config.ConfigFile`
  is the already-parsed result, with option names already lower-cased.
- `Config.Get`: configparser's `%` interpolation, which happens inside
  `config.get`, is not modelled. `ConfigFile` values are taken as already
  interpolated. A value such as `100%` makes `get` raise
  `InterpolationSyntaxError`, which the `except` at main.py:24 does not
  catch, so start-up fails; the model's `Get` returns the value instead.
  A reference such as `%(font_path)s` is not expanded.
- `Labels.OutputPathInjective`: files are identified by their path
  string, here and in the `written` map of `Batch`. Two strings that name
  one file are treated as two files. This covers `.` and `..` parts,
  repeated slashes, and case-insensitive file systems.
- CSV parsing (quoting, the header line, dialects) is left out; rows are
  given as maps. DictReader fills the missing fields of a short row with
  `None`. The model has no `None` value: a column is either present with
  a string or absent.
- Image content is left out: resampling, pasting pixels, glyph rendering,
  PNG encoding. The foreign calls appear only through their success or
  failure and their results.
- QR and EAN-13 encoding are left out. That includes python-barcode's
  checksum and payload validation, which is inside `Env.barcode`.
- `int()` is modelled for ASCII only. Non-ASCII digits and non-ASCII
  whitespace are not modelled. `lower()` is modelled for ASCII letters
  only.
- `int()` limits on long numerals are not modelled. CPython 3.11 and
  later rejects text of more than 4300 digits in `int()` and `str()`, and
  the limit can be changed at run time. `Numerals.ParseShow` and
  `Config.GetTupleReadsBack` hold for every length.
- `Batch.Generate`: files already in the output folder are seen only
  through the folder listing (`OutputFolder`), and the labels a run saves
  only through `Report.written`. A label whose file name matches an entry
  that survived clearing is not merged into that listing.
- `os.makedirs` and `os.listdir` failures are left out. So is a
  non-directory already at the output path. The folder either exists with
  some entries or does not exist yet.
- A drawing error from `draw.text` is not modelled. Nor are lazy image
  loading errors that would surface at `copy()` rather than at open.
- Printing of diagnostics is left out. Each error is a value of
  `Errors.Error` instead.

=== FILE: batch.dfy ===
/** The batch run (`process_csv` and `main` in main.py): rows are turned
    into labels strictly in input order, each label is written to the file
    named after its barcode value, and the first failure ends the run. The
    files written so far are modelled as a map from path to label, so a
    later row with the same path replaces an earlier one. */
module Batch {
  import opened Wrappers
  import opened Errors
  import opened Config
  import opened OutputFolder
  import opened Labels
  import opened Sequences

  /** The rows the CSV reader yields, in file order, and the error it raises
      after the last of them, if any. The reader is lazy: a malformed line
      only surfaces once every row before it has been processed, and a
      missing file is a source with no rows and an error. */
  datatype RowSource = RowSource(rows: seq<Row>, trailer: Option<string>)

  datatype Outcome = Completed | Aborted(error: Error)

  /** The files present after a run, how many rows produced a label, and how
      the run ended. */
  datatype RunResult = RunResult(written: map<string, Label>, processed: nat, outcome: Outcome)

  /** The `for row in self.csv_row_generator()` loop as a left fold: each
      row's label is written before the next row is looked at, and the first
      failing row ends the run. */
  function Run(gen: Generator, env: Env, rows: seq<Row>, trailer: Option<string>,
               written: map<string, Label>): (r: RunResult)
    ensures r.processed <= |rows|
    ensures r.outcome.Completed? ==> r.processed == |rows| && trailer.None?
    ensures r.outcome.Aborted? && r.processed < |rows| ==>
      CreateLabel(gen, env, rows[r.processed]) == Err(r.outcome.error)
    decreases |rows|
  {
    if |rows| == 0 then
      RunResult(written, 0, if trailer.Some? then Aborted(InputError(trailer.value)) else Completed)
    else
      match CreateLabel(gen, env, rows[0])
      case Err(e) => RunResult(written, 0, Aborted(e))
      case Ok(out) =>
        var rest := Run(gen, env, rows[1..], trailer, written[out.path := out.content]);
        assert rest.processed < |rows[1..]| ==> rows[1..][rest.processed] == rows[rest.processed + 1];
        rest.(processed := rest.processed + 1)
  }

  /** Reference definition: the labels of the longest run of leading rows
      that all succeed. */
  function Succeeding(gen: Generator, env: Env, rows: seq<Row>): (outs: seq<Output>)
    ensures |outs| <= |rows|
    ensures forall i :: 0 <= i < |outs| ==> CreateLabel(gen, env, rows[i]) == Ok(outs[i])
    ensures |outs| < |rows| ==> CreateLabel(gen, env, rows[|outs|]).Err?
  {
    if |rows| == 0 then []
    else
      match CreateLabel(gen, env, rows[0])
      case Err(_) => []
      case Ok(out) =>
        var rest := Succeeding(gen, env, rows[1..]);
        ConsShift(out, rest);
        TailShift(rows);
        [out] + rest
  }

  /** Writing labels one after another into a folder. */
  function Apply(written: map<string, Label>, outs: seq<Output>): map<string, Label>
    decreases |outs|
  {
    if |outs| == 0 then written
    else Apply(written[outs[0].path := outs[0].content], outs[1..])
  }

  /** The file a label was written to holds that label unless a later label
      went to the same file. */
  lemma {:induction false} ApplyLastWins(written: map<string, Label>, outs: seq<Output>, i: nat)
    requires i < |outs|
    requires forall j :: i < j < |outs| ==> outs[j].path != outs[i].path
    ensures outs[i].path in Apply(written, outs)
    ensures Apply(written, outs)[outs[i].path] == outs[i].content
    decreases |outs|
  {
    var w := written[outs[0].path := outs[0].content];
    if i == 0 {
      ApplyUntouched(w, outs[1..], outs[0].path);
    } else {
      ApplyLastWins(w, outs[1..], i - 1);
    }
  }

  /** A file no label went to keeps whatever it held, or stays absent. */
  lemma {:induction false} ApplyUntouched(written: map<string, Label>, outs: seq<Output>, path: string)
    requires forall j :: 0 <= j < |outs| ==> outs[j].path != path
    ensures path in Apply(written, outs) <==> path in written
    ensures path in written ==> Apply(written, outs)[path] == written[path]
    decreases |outs|
  {
    if |outs| > 0 {
      ApplyUntouched(written[outs[0].path := outs[0].content], outs[1..], path);
    }
  }

  /** Only the files labels went to appear. */
  lemma {:induction false} ApplyOnlyWritesTargets(written: map<string, Label>, outs: seq<Output>, path: string)
    requires path in Apply(written, outs)
    ensures path in written || exists j :: 0 <= j < |outs| && outs[j].path == path
    decreases |outs|
  {
    if |outs| > 0 {
      ApplyOnlyWritesTargets(written[outs[0].path := outs[0].content], outs[1..], path);
      if path !in written && path != outs[0].path {
        var j :| 0 <= j < |outs[1..]| && outs[1..][j].path == path;
        assert outs[j + 1].path == path;
      }
    }
  }

  /** The run writes exactly the labels of its longest successful prefix,
      in order, and stops at the first failing row or at the reader's
      error. */
  lemma {:induction false} RunWritesSucceedingPrefix(gen: Generator, env: Env, rows: seq<Row>,
                                                     trailer: Option<string>, written: map<string, Label>)
    ensures Run(gen, env, rows, trailer, written).processed == |Succeeding(gen, env, rows)|
    ensures Run(gen, env, rows, trailer, written).written == Apply(written, Succeeding(gen, env, rows))
    ensures Run(gen, env, rows, trailer, written).outcome ==
      if |Succeeding(gen, env, rows)| < |rows| then
        Aborted(CreateLabel(gen, env, rows[|Succeeding(gen, env, rows)|]).error)
      else if trailer.Some? then Aborted(InputError(trailer.value))
      else Completed
    decreases |rows|
  {
    if |rows| > 0 {
      match CreateLabel(gen, env, rows[0])
      case Err(e) =>
      case Ok(out) =>
        var rest := rows[1..];
        RunWritesSucceedingPrefix(gen, env, rest, trailer, written[out.path := out.content]);
        var outs := Succeeding(gen, env, rest);
        assert Succeeding(gen, env, rows) == [out] + outs;
        assert ([out] + outs)[1..] == outs;
        if |outs| < |rest| {
          assert rows[|outs| + 1] == rest[|outs|];
        }
    }
  }

  /** The file a row's label goes to, when the row succeeds. */
  function Target(gen: Generator, env: Env, row: Row): Option<string>
  {
    match CreateLabel(gen, env, row)
    case Ok(out) => Some(out.path)
    case Err(_) => None
  }

  /** Rows are processed in order and the later of two rows with the same
      output file wins: after the run, the file of any processed row holds
      that row's label unless a later processed row wrote the same file. */
  lemma LastWriterWins(gen: Generator, env: Env, rows: seq<Row>, trailer: Option<string>,
                       written: map<string, Label>, i: nat)
    requires i < Run(gen, env, rows, trailer, written).processed
    requires forall j :: i < j < Run(gen, env, rows, trailer, written).processed ==>
      Target(gen, env, rows[j]) != Target(gen, env, rows[i])
    ensures CreateLabel(gen, env, rows[i]).Ok?
    ensures CreateLabel(gen, env, rows[i]).value.path in Run(gen, env, rows, trailer, written).written
    ensures Run(gen, env, rows, trailer, written).written[CreateLabel(gen, env, rows[i]).value.path]
            == CreateLabel(gen, env, rows[i]).value.content
  {
    RunWritesSucceedingPrefix(gen, env, rows, trailer, written);
    var outs := Succeeding(gen, env, rows);
    forall j | i < j < |outs|
      ensures outs[j].path != outs[i].path
    {
      assert Target(gen, env, rows[j]) == Some(outs[j].path);
      assert Target(gen, env, rows[i]) == Some(outs[i].path);
    }
    ApplyLastWins(written, outs, i);
  }

  /** Two successful rows with the same barcode value leave a single file,
      holding the later row's label. */
  lemma SameBarcodeOverwrites(gen: Generator, env: Env, first: Row, second: Row, written: map<string, Label>)
    requires CreateLabel(gen, env, first).Ok? && CreateLabel(gen, env, second).Ok?
    requires first[BarcodeColumn] == second[BarcodeColumn]
    ensures Run(gen, env, [first, second], None, written) ==
      RunResult(written[CreateLabel(gen, env, second).value.path := CreateLabel(gen, env, second).value.content],
                2, Completed)
  {
    var out1 := CreateLabel(gen, env, first).value;
    var out2 := CreateLabel(gen, env, second).value;
    var w1 := written[out1.path := out1.content];
    var w2 := w1[out2.path := out2.content];
    assert out1.path == out2.path;
    assert w2 == written[out2.path := out2.content];
    assert Run(gen, env, [], None, w2) == RunResult(w2, 0, Completed);
    assert [second][1..] == [];
    assert Run(gen, env, [second], None, w1) == RunResult(w2, 1, Completed);
    assert [first, second][1..] == [second];
    assert Run(gen, env, [first, second], None, written) == RunResult(w2, 2, Completed);
  }

  /** Nothing after a failing row is looked at: appending more rows behind
      the rows of a run that stopped at a failing row changes nothing. */
  lemma {:induction false} NothingAfterFailure(gen: Generator, env: Env, rows: seq<Row>, more: seq<Row>,
                                               trailer: Option<string>, trailer': Option<string>,
                                               written: map<string, Label>)
    requires Run(gen, env, rows, trailer, written).processed < |rows|
    ensures Run(gen, env, rows + more, trailer', written) == Run(gen, env, rows, trailer, written)
    decreases |rows|
  {
    AppendFront(rows, more);
    match CreateLabel(gen, env, rows[0])
    case Err(e) =>
    case Ok(out) =>
      NothingAfterFailure(gen, env, rows[1..], more, trailer, trailer', written[out.path := out.content]);
  }

  /** A run's result seen from `done` rows further back in the input. */
  function Resume(r: RunResult, done: nat): RunResult
  {
    r.(processed := r.processed + done)
  }

  /** One step of the run: the first row either ends it or is written
      before the rest is processed. */
  lemma RunStep(gen: Generator, env: Env, rows: seq<Row>, trailer: Option<string>, written: map<string, Label>)
    requires |rows| > 0
    ensures CreateLabel(gen, env, rows[0]).Err? ==>
      Run(gen, env, rows, trailer, written) == RunResult(written, 0, Aborted(CreateLabel(gen, env, rows[0]).error))
    ensures CreateLabel(gen, env, rows[0]).Ok? ==>
      var out := CreateLabel(gen, env, rows[0]).value;
      Run(gen, env, rows, trailer, written) == Resume(Run(gen, env, rows[1..], trailer, written[out.path := out.content]), 1)
  {
  }

  /** `process_csv`: the loop itself, written as `process_csv` writes it. */
  method ProcessCsv(gen: Generator, env: Env, source: RowSource, written: map<string, Label>)
    returns (r: RunResult)
    ensures r == Run(gen, env, source.rows, source.trailer, written)
  {
    var rows, trailer := source.rows, source.trailer;
    var files := written;
    var i := 0;
    while i < |rows|
      invariant 0 <= i <= |rows|
      invariant Run(gen, env, rows, trailer, written) == Resume(Run(gen, env, rows[i..], trailer, files), i)
      decreases |rows| - i
    {
      var step := CreateLabel(gen, env, rows[i]);
      RunStep(gen, env, rows[i..], trailer, files);
      Drop(rows, i);
      if step.Err? {
        return RunResult(files, i, Aborted(step.error));
      }
      files := files[step.value.path := step.value.content];
      i := i + 1;
    }
    Drop(rows, i);
    if trailer.Some? {
      return RunResult(files, i, Aborted(InputError(trailer.value)));
    }
    return RunResult(files, i, Completed);
  }

  /** Everything observable after a whole run: the output folder's entries
      once start-up has prepared it (absent if start-up stopped before
      creating it), the entries whose deletion failed, the labels this run
      saved, by path, and the outcome. */
  datatype Report = Report(
    folder: Option<Folder>,
    removalFailures: set<string>,
    written: map<string, Label>,
    outcome: Outcome)

  /** What `main` leaves behind once start-up has produced `gen`: the output
      folder prepared as the flag says, and the rows processed from an empty
      set of saved labels. */
  predicate RanAfterStart(gen: Generator, env: Env, existing: Option<Folder>, denied: set<string>,
                          source: RowSource, rep: Report)
  {
    var run := Run(gen, env, source.rows, source.trailer, map[]);
    && rep.folder.Some?
    && (existing.Some? && gen.settings.clearOutputFolder ==>
          rep.folder.value == Cleared(existing.value, denied)
          && rep.removalFailures == Failures(existing.value, denied))
    && (existing.Some? && !gen.settings.clearOutputFolder ==>
          rep.folder == existing && rep.removalFailures == {})
    && (existing.None? ==> rep.folder == Some(map[]) && rep.removalFailures == {})
    && rep.written == run.written
    && rep.outcome == run.outcome
  }

  /** What `main` does once start-up has produced `gen`: prepare the output
      folder as the flag says, then process every row. */
  method RunGenerator(gen: Generator, env: Env, existing: Option<Folder>, denied: set<string>,
                      source: RowSource) returns (rep: Report)
    ensures RanAfterStart(gen, env, existing, denied, source, rep)
  {
    var folder, failures := PrepareOutputFolder(existing, gen.settings.clearOutputFolder, denied);
    var run := ProcessCsv(gen, env, source, map[]);
    return Report(Some(folder), failures, run.written, run.outcome);
  }

  /** `main`: build the generator (settings, font, template, output folder)
      and then process the rows read from the configured input file. The
      configuration is resolved completely before any row is looked at; a
      failure at start-up leaves the folder untouched and saves nothing. */
  method Generate(cfg: ConfigFile, env: Env, existing: Option<Folder>, denied: set<string>,
                  source: RowSource) returns (rep: Report)
    ensures Start(cfg, env).Err? ==>
      rep == Report(existing, {}, map[], Aborted(Start(cfg, env).error))
    ensures Start(cfg, env).Ok? ==>
      RanAfterStart(Start(cfg, env).value, env, existing, denied, source, rep)
  {
    var gen := Start(cfg, env);
    if gen.Err? {
      return Report(existing, {}, map[], Aborted(gen.error));
    }
    rep := RunGenerator(gen.value, env, existing, denied, source);
  }
}

=== FILE: config.dfy ===
/** The configuration loader (`ConfigLoader` in main.py): typed accessors over
    an already-read INI file. Reading and parsing the file itself is done by
    Python's configparser and is not modelled; what is modelled is what the
    accessors do with the parsed sections. */
module Config {
  import opened Wrappers
  import opened Strings
  import opened Numerals
  import opened Errors

  /** A parsed INI file. configparser lower-cases option names when it reads
      them, so every key of `defaults` and of each section is lower case. The
      `[DEFAULT]` section is kept apart: its options are visible in every
      section. Values are taken as configparser's `%` interpolation would
      leave them. configparser never lists it among the sections, so a file it
      produces has no `"DEFAULT"` key in `sections`; `Get` does not rely on
      this, but on a value that breaks it, such a key would be looked up
      like any other section. */
  datatype ConfigFile = ConfigFile(
    defaults: map<string, string>,
    sections: map<string, map<string, string>>)

  const DefaultSection := "DEFAULT"

  /** `config.get(section, option)`: the section's own value, else the
      `[DEFAULT]` value; a missing section or option is an error and no
      fallback value is ever made up. */
  function Get(cfg: ConfigFile, section: string, option: string): (r: Result<string, Error>)
    ensures r.Err? ==> r.error == NoSection(section) || r.error == NoOption(section, Lower(option))
    ensures r == Err(NoSection(section)) <==>
      section !in cfg.sections && section != DefaultSection
    ensures r.Ok? <==>
      (section in cfg.sections && Lower(option) in cfg.sections[section])
      || ((section in cfg.sections || section == DefaultSection) && Lower(option) in cfg.defaults)
    ensures r.Ok? && section in cfg.sections && Lower(option) in cfg.sections[section] ==>
      r.value == cfg.sections[section][Lower(option)]
    ensures r.Ok? && (section !in cfg.sections || Lower(option) !in cfg.sections[section]) ==>
      r.value == cfg.defaults[Lower(option)]
  {
    var key := Lower(option);
    if section in cfg.sections then
      var own := cfg.sections[section];
      if key in own then Ok(own[key])
      else if key in cfg.defaults then Ok(cfg.defaults[key])
      else Err(NoOption(section, key))
    else if section == DefaultSection then
      if key in cfg.defaults then Ok(cfg.defaults[key])
      else Err(NoOption(section, key))
    else Err(NoSection(section))
  }

  /** Option names are matched without regard to ASCII case. */
  lemma GetIgnoresOptionCase(cfg: ConfigFile, section: string, option: string)
    ensures Get(cfg, section, option) == Get(cfg, section, Lower(option))
  {
    LowerIdempotent(option);
  }

  /** `get_tuple(section, option)`: split the value on commas and convert
      every field with `int()`. The code does not check how many fields there
      are. */
  function GetTuple(cfg: ConfigFile, section: string, option: string): (r: Result<seq<int>, Error>)
    ensures Get(cfg, section, option).Err? ==> r == Err(Get(cfg, section, option).error)
    ensures r.Ok? ==> Get(cfg, section, option).Ok?
    ensures r.Ok? ==>
      var text := Get(cfg, section, option).value;
      && |r.value| == Occurrences(text, ',') + 1
      && forall i :: 0 <= i < |r.value| ==> ParseInt(Split(text, ',')[i]) == Some(r.value[i])
    ensures Get(cfg, section, option).Ok? ==>
      (r.Err? <==> exists i :: 0 <= i < |Split(Get(cfg, section, option).value, ',')|
                               && ParseInt(Split(Get(cfg, section, option).value, ',')[i]).None?)
    ensures Get(cfg, section, option).Ok? && r.Err? ==>
      var fields := Split(Get(cfg, section, option).value, ',');
      exists k :: 0 <= k < |fields| && FirstRejected(ParseInt, fields, k) && r.error == NotAnInteger(fields[k])
  {
    var text :- Get(cfg, section, option);
    match MapAll(ParseInt, Split(text, ','))
    case Ok(ns) => Ok(ns)
    case Err(field) => Err(NotAnInteger(field))
  }

  /** Comma-separated decimal text for a list of integers, as a user writes
      `qr_size = 200,200`. */
  function ShowTuple(ns: seq<int>): string
  {
    Join(ShowAll(ns), ',')
  }

  function ShowAll(ns: seq<int>): (ss: seq<string>)
    ensures |ss| == |ns|
    ensures forall i :: 0 <= i < |ns| ==> ss[i] == Show(ns[i])
  {
    if |ns| == 0 then [] else [Show(ns[0])] + ShowAll(ns[1..])
  }

  /** Whatever integers a tuple option is written with, `get_tuple` reads
      back exactly those integers, in order. */
  lemma GetTupleReadsBack(cfg: ConfigFile, section: string, option: string, ns: seq<int>)
    requires |ns| > 0
    requires Get(cfg, section, option) == Ok(ShowTuple(ns))
    ensures GetTuple(cfg, section, option) == Ok(ns)
  {
    var parts := ShowAll(ns);
    forall i | 0 <= i < |parts|
      ensures ',' !in parts[i]
    {
      ShowHasNoComma(ns[i]);
    }
    SplitJoin(parts, ',');
    assert Split(ShowTuple(ns), ',') == parts;
    forall i | 0 <= i < |parts|
      ensures ParseInt(parts[i]) == Some(ns[i])
    {
      ParseShowExact(ns[i]);
    }
    var r := MapAll(ParseInt, parts);
    assert r.Ok?;
    assert r.value == ns;
  }

  lemma ShowHasNoComma(n: int)
    ensures ',' !in Show(n)
  {
    var m: nat := if n < 0 then -n else n;
    assert AllDigits(ShowNat(m));
    if n < 0 {
      assert Show(n) == "-" + ShowNat(m);
    }
  }

  /** `get_int(section, option)`: `int()` of the value. */
  function GetInt(cfg: ConfigFile, section: string, option: string): (r: Result<int, Error>)
    ensures Get(cfg, section, option).Err? ==> r == Err(Get(cfg, section, option).error)
    ensures Get(cfg, section, option).Ok? ==>
      match ParseInt(Get(cfg, section, option).value)
      case Some(n) => r == Ok(n)
      case None => r == Err(NotAnInteger(Get(cfg, section, option).value))
  {
    var text :- Get(cfg, section, option);
    match ParseInt(text)
    case Some(n) => Ok(n)
    case None => Err(NotAnInteger(text))
  }

  /** configparser's BOOLEAN_STATES: the only words `getboolean` accepts,
      compared after lower-casing. */
  const BooleanStates: map<string, bool> := map[
    "1" := true, "yes" := true, "true" := true, "on" := true,
    "0" := false, "no" := false, "false" := false, "off" := false]

  /** `get_boolean(section, option)`. */
  function GetBoolean(cfg: ConfigFile, section: string, option: string): (r: Result<bool, Error>)
    ensures Get(cfg, section, option).Err? ==> r == Err(Get(cfg, section, option).error)
    ensures r == Ok(true) <==>
      Get(cfg, section, option).Ok? && Lower(Get(cfg, section, option).value) in {"1", "yes", "true", "on"}
    ensures r == Ok(false) <==>
      Get(cfg, section, option).Ok? && Lower(Get(cfg, section, option).value) in {"0", "no", "false", "off"}
  {
    var text :- Get(cfg, section, option);
    var key := Lower(text);
    if key in BooleanStates then Ok(BooleanStates[key]) else Err(NotABoolean(text))
  }
}

=== FILE: errors.dfy ===
/** The exceptions the label generator can raise, one constructor per kind. */
module Errors {

  datatype Error =
    /** configparser.NoSectionError */
    | NoSection(section: string)
    /** configparser.NoOptionError, carrying the lower-cased option name */
    | NoOption(section: string, option: string)
    /** int() rejected a field: "invalid literal for int()" */
    | NotAnInteger(literal: string)
    /** getboolean() rejected a value: "Not a boolean" */
    | NotABoolean(value: string)
    /** the font file could not be loaded */
    | FontError(reason: string)
    /** the master template could not be opened */
    | ImageError(reason: string)
    /** a row has no value for a required column (KeyError) */
    | MissingColumn(column: string)
    /** the QR or barcode library rejected its payload, or resizing failed */
    | EncodingError(reason: string)
    /** `x, y = position` on a tuple that does not have exactly two parts */
    | UnpackError(arity: nat)
    /** the imaging library refused to paste an image at the given box */
    | PasteError(box: seq<int>)
    /** the label image could not be written */
    | SaveError(path: string)
    /** the tabular input file is missing or malformed */
    | InputError(reason: string)
}

=== FILE: folder.dfy ===
/** Preparing the output folder (`prepare_output_folder`): create it if it is
    missing and, when `clear_output_folder` is set, try to delete every entry
    directly inside it. Files and symbolic links are unlinked; directories are
    removed with `rmdir`, which only succeeds on an empty one; anything else
    is left alone. A deletion that fails is reported and skipped, and the
    remaining entries are still tried. */
module OutputFolder {
  import opened Wrappers

  /** What `os.path` says an entry is. A link is unlinked whatever it points
      at, because `islink` is tested before `isdir`. `Special` stands for
      entries that are none of these (fifos, sockets, devices). */
  datatype Entry = File | Link | Dir(empty: bool) | Special

  /** The entries directly inside a folder, by name. */
  type Folder = map<string, Entry>

  /** Whether the loop tries to delete this entry at all. */
  predicate Attempted(e: Entry)
  {
    !e.Special?
  }

  /** Whether deleting the entry named `name` succeeds. `denied` names the
      entries the operating system refuses to delete (permissions, busy
      files); `rmdir` also refuses a directory that is not empty. */
  predicate Deleted(name: string, e: Entry, denied: set<string>)
  {
    && Attempted(e)
    && name !in denied
    && (e.Dir? ==> e.empty)
  }

  /** Reference definition: what is left once every entry has been tried. */
  function Cleared(folder: Folder, denied: set<string>): Folder
  {
    map name | name in folder && !Deleted(name, folder[name], denied) :: folder[name]
  }

  /** Reference definition: the entries whose deletion was tried and failed. */
  function Failures(folder: Folder, denied: set<string>): set<string>
  {
    set name | name in folder && Attempted(folder[name]) && !Deleted(name, folder[name], denied)
  }

  /** The loop over `os.listdir(output_folder)`. The listing order is
      arbitrary, so each round picks any name not yet visited. Returns the
      folder afterwards and the names whose deletion failed and was
      swallowed. */
  method ClearFolder(folder: Folder, denied: set<string>) returns (after: Folder, failed: set<string>)
    ensures after == Cleared(folder, denied)
    ensures failed == Failures(folder, denied)
  {
    var todo := folder.Keys;
    after := folder;
    failed := {};
    while todo != {}
      invariant todo <= folder.Keys
      invariant after.Keys <= folder.Keys
      invariant forall name :: name in after ==> after[name] == folder[name]
      invariant forall name :: name in todo ==> name in after
      invariant forall name :: name in folder && name !in todo ==>
        (name !in after <==> Deleted(name, folder[name], denied))
      invariant forall name :: name in failed <==>
        name in folder && name !in todo && Attempted(folder[name]) && !Deleted(name, folder[name], denied)
      decreases todo
    {
      var name :| name in todo;
      var e := folder[name];
      if e.File? || e.Link? {
        // os.unlink
        if name in denied {
          failed := failed + {name};
        } else {
          after := after - {name};
        }
      } else if e.Dir? {
        // os.rmdir
        if name in denied || !e.empty {
          failed := failed + {name};
        } else {
          after := after - {name};
        }
      }
      todo := todo - {name};
    }
    assert after.Keys == Cleared(folder, denied).Keys;
  }

  /** `prepare_output_folder`: `os.makedirs(..., exist_ok=True)` turns a
      missing folder into an empty one; the folder is cleared only when the
      flag is set. */
  method PrepareOutputFolder(existing: Option<Folder>, clear: bool, denied: set<string>)
    returns (after: Folder, failed: set<string>)
    ensures existing.None? ==> after == map[] && failed == {}
    ensures existing.Some? && !clear ==> after == existing.value && failed == {}
    ensures existing.Some? && clear ==>
      after == Cleared(existing.value, denied) && failed == Failures(existing.value, denied)
  {
    if existing.None? {
      after, failed := map[], {};
    } else if !clear {
      after, failed := existing.value, {};
    } else {
      after, failed := ClearFolder(existing.value, denied);
    }
  }

  /** After clearing, nothing new appears and no entry changes; no file or
      link remains unless its deletion was refused; every non-empty directory
      and every special entry is still there; and with nothing refused only
      those remain. */
  lemma ClearingKeepsOnlyWhatCannotGo(folder: Folder, denied: set<string>)
    ensures Cleared(folder, denied).Keys <= folder.Keys
    ensures forall name :: name in Cleared(folder, denied) ==> Cleared(folder, denied)[name] == folder[name]
    ensures forall name :: name in folder && (folder[name] == File || folder[name] == Link) ==>
      (name in Cleared(folder, denied) <==> name in denied)
    ensures forall name :: name in folder && folder[name] == Dir(true) ==>
      (name in Cleared(folder, denied) <==> name in denied)
    ensures forall name :: name in folder && folder[name] in {Dir(false), Special} ==>
      name in Cleared(folder, denied)
    ensures denied * folder.Keys == {} ==>
      forall name :: name in Cleared(folder, denied) ==> folder[name] in {Dir(false), Special}
  {
    if denied * folder.Keys == {} {
      forall name | name in Cleared(folder, denied)
        ensures folder[name] in {Dir(false), Special}
      {
        assert name !in denied * folder.Keys;
      }
    }
  }
}

=== FILE: labels.dfy ===
/** The label generator (`ShippingLabelGenerator` in main.py) up to a single
    label: resolving its settings, initialisation, and composing one label
    from one input row. Fonts, the master template, the QR and EAN-13
    encoders, pasting and saving live in foreign libraries; they are the
    fields of an `Env` and may fail. */
module Labels {
  import opened Wrappers
  import opened Errors
  import opened Config
  import opened Text

  /** Every setting the generator reads, typed as the accessors return it.
      Positions and sizes keep whatever number of parts the option had. */
  datatype Settings = Settings(
    masterImagePath: string,
    fontPath: string,
    outputFolder: string,
    csvFilePath: string,
    qrPosition: seq<int>,
    barcodePosition: seq<int>,
    textPosition: seq<int>,
    qrSize: seq<int>,
    barcodeSize: seq<int>,
    fontSize: int,
    clearOutputFolder: bool)

  /** The settings part of `ShippingLabelGenerator.__init__`: the options are
      read one after another and the first failure aborts start-up. */
  function LoadSettings(cfg: ConfigFile): (r: Result<Settings, Error>)
    ensures r.Ok? ==>
      && Get(cfg, "Paths", "master_shipping_label_image_path") == Ok(r.value.masterImagePath)
      && Get(cfg, "Paths", "font_path") == Ok(r.value.fontPath)
      && Get(cfg, "Paths", "output_folder") == Ok(r.value.outputFolder)
      && Get(cfg, "Paths", "csv_file_path") == Ok(r.value.csvFilePath)
      && GetTuple(cfg, "Positions", "qr_position") == Ok(r.value.qrPosition)
      && GetTuple(cfg, "Positions", "barcode_position") == Ok(r.value.barcodePosition)
      && GetTuple(cfg, "Positions", "text_position") == Ok(r.value.textPosition)
      && GetTuple(cfg, "Sizes", "qr_size") == Ok(r.value.qrSize)
      && GetTuple(cfg, "Sizes", "barcode_size") == Ok(r.value.barcodeSize)
      && GetInt(cfg, "Font", "font_size") == Ok(r.value.fontSize)
      && GetBoolean(cfg, "Settings", "clear_output_folder") == Ok(r.value.clearOutputFolder)
    ensures
      && Get(cfg, "Paths", "master_shipping_label_image_path").Ok?
      && Get(cfg, "Paths", "font_path").Ok?
      && Get(cfg, "Paths", "output_folder").Ok?
      && Get(cfg, "Paths", "csv_file_path").Ok?
      && GetTuple(cfg, "Positions", "qr_position").Ok?
      && GetTuple(cfg, "Positions", "barcode_position").Ok?
      && GetTuple(cfg, "Positions", "text_position").Ok?
      && GetTuple(cfg, "Sizes", "qr_size").Ok?
      && GetTuple(cfg, "Sizes", "barcode_size").Ok?
      && GetInt(cfg, "Font", "font_size").Ok?
      && GetBoolean(cfg, "Settings", "clear_output_folder").Ok?
      ==> r.Ok?
    ensures
      var r1 := Get(cfg, "Paths", "master_shipping_label_image_path");
      var r2 := Get(cfg, "Paths", "font_path");
      var r3 := Get(cfg, "Paths", "output_folder");
      var r4 := Get(cfg, "Paths", "csv_file_path");
      var r5 := GetTuple(cfg, "Positions", "qr_position");
      var r6 := GetTuple(cfg, "Positions", "barcode_position");
      var r7 := GetTuple(cfg, "Positions", "text_position");
      var r8 := GetTuple(cfg, "Sizes", "qr_size");
      var r9 := GetTuple(cfg, "Sizes", "barcode_size");
      var r10 := GetInt(cfg, "Font", "font_size");
      var r11 := GetBoolean(cfg, "Settings", "clear_output_folder");
      var ok1 := r1.Ok?;
      var ok2 := ok1 && r2.Ok?;
      var ok3 := ok2 && r3.Ok?;
      var ok4 := ok3 && r4.Ok?;
      var ok5 := ok4 && r5.Ok?;
      var ok6 := ok5 && r6.Ok?;
      var ok7 := ok6 && r7.Ok?;
      var ok8 := ok7 && r8.Ok?;
      var ok9 := ok8 && r9.Ok?;
      var ok10 := ok9 && r10.Ok?;
      && (r1.Err? ==> r == Err(r1.error))
      && (ok1 && r2.Err? ==> r == Err(r2.error))
      && (ok2 && r3.Err? ==> r == Err(r3.error))
      && (ok3 && r4.Err? ==> r == Err(r4.error))
      && (ok4 && r5.Err? ==> r == Err(r5.error))
      && (ok5 && r6.Err? ==> r == Err(r6.error))
      && (ok6 && r7.Err? ==> r == Err(r7.error))
      && (ok7 && r8.Err? ==> r == Err(r8.error))
      && (ok8 && r9.Err? ==> r == Err(r9.error))
      && (ok9 && r10.Err? ==> r == Err(r10.error))
      && (ok10 && r11.Err? ==> r == Err(r11.error))
  {
    var masterImagePath :- Get(cfg, "Paths", "master_shipping_label_image_path");
    var fontPath :- Get(cfg, "Paths", "font_path");
    var outputFolder :- Get(cfg, "Paths", "output_folder");
    var csvFilePath :- Get(cfg, "Paths", "csv_file_path");
    var qrPosition :- GetTuple(cfg, "Positions", "qr_position");
    var barcodePosition :- GetTuple(cfg, "Positions", "barcode_position");
    var textPosition :- GetTuple(cfg, "Positions", "text_position");
    var qrSize :- GetTuple(cfg, "Sizes", "qr_size");
    var barcodeSize :- GetTuple(cfg, "Sizes", "barcode_size");
    var fontSize :- GetInt(cfg, "Font", "font_size");
    var clearOutputFolder :- GetBoolean(cfg, "Settings", "clear_output_folder");
    Ok(Settings(masterImagePath, fontPath, outputFolder, csvFilePath,
                qrPosition, barcodePosition, textPosition, qrSize, barcodeSize,
                fontSize, clearOutputFolder))
  }

  /** A raster image; its pixels are produced by the foreign libraries and
      never inspected here. */
  datatype Image = Image(pixels: seq<seq<int>>)

  /** The foreign calls, as functions of their arguments.
      - `fontBottom(path, size)`: load the TrueType font and return the
        bottom of the bounding box of "A" (`getbbox("A")[3]`), or the reason
        loading failed;
      - `openImage(path)`: open the master template;
      - `qrCode(data, size)`: QR symbol (version 1, box size 10, border 5,
        grown to fit) rendered and resized to `size`;
      - `barcode(data, size)`: EAN-13 symbol rendered and resized to `size`;
        python-barcode validates the payload;
      - `pasteAccepts(image, box)`: whether Pillow accepts pasting `image`
        at `box`;
      - `canSave(path)`: whether writing a PNG file at `path` succeeds. */
  datatype Env = Env(
    fontBottom: (string, int) -> Result<int, string>,
    openImage: string -> Result<Image, string>,
    qrCode: (string, seq<int>) -> Result<Image, string>,
    barcode: (string, seq<int>) -> Result<Image, string>,
    pasteAccepts: (Image, seq<int>) -> bool,
    canSave: string -> bool)

  /** A generator that has finished its start-up: settings, the line height
      measured once from the font, and the master template loaded once. */
  datatype Generator = Generator(settings: Settings, lineHeight: int, master: Image)

  /** The rest of `ShippingLabelGenerator.__init__` before the output folder
      is prepared: load the font and measure the line height once, then open
      the master template once. */
  function LoadResources(settings: Settings, env: Env): (r: Result<Generator, Error>)
    ensures r.Ok? <==>
      env.fontBottom(settings.fontPath, settings.fontSize).Ok? && env.openImage(settings.masterImagePath).Ok?
    ensures r.Ok? ==>
      && r.value.settings == settings
      && r.value.lineHeight == env.fontBottom(settings.fontPath, settings.fontSize).value + 2
      && r.value.master == env.openImage(settings.masterImagePath).value
    ensures env.fontBottom(settings.fontPath, settings.fontSize).Err? ==> r.Err? && r.error.FontError?
    ensures env.fontBottom(settings.fontPath, settings.fontSize).Ok? && r.Err? ==> r.error.ImageError?
  {
    match env.fontBottom(settings.fontPath, settings.fontSize)
    case Err(why) => Err(FontError(why))
    case Ok(bottom) =>
      match env.openImage(settings.masterImagePath)
      case Err(why) => Err(ImageError(why))
      case Ok(master) => Ok(Generator(settings, bottom + 2, master))
  }

  /** Start-up up to, but not including, the output folder: every setting is
      resolved before the font and the template are touched, and the first
      failure aborts start-up. */
  function Start(cfg: ConfigFile, env: Env): (r: Result<Generator, Error>)
    ensures r.Ok? ==> LoadSettings(cfg) == Ok(r.value.settings)
    ensures r.Ok? ==> LoadResources(r.value.settings, env) == r
    ensures LoadSettings(cfg).Err? ==> r == Err(LoadSettings(cfg).error)
    ensures LoadSettings(cfg).Ok? ==> r == LoadResources(LoadSettings(cfg).value, env)
  {
    var settings :- LoadSettings(cfg);
    LoadResources(settings, env)
  }

  /** `os.path.join(folder, name)` on POSIX: an absolute `name` replaces the
      folder, otherwise a `/` is inserted unless the folder is empty or
      already ends with one. */
  function JoinPath(folder: string, name: string): string
  {
    if |name| > 0 && name[0] == '/' then name
    else if |folder| == 0 || folder[|folder| - 1] == '/' then folder + name
    else folder + "/" + name
  }

  /** Where the label of a row is written: the file name is the barcode
      value plus `.png`. An absolute barcode value is the whole path;
      otherwise the folder comes first, then one `/` unless the folder is
      empty or already ends with one, then the file name. */
  function OutputPath(folder: string, barcodeData: string): (p: string)
    ensures var name := barcodeData + ".png";
      |p| >= |name| && p[|p| - |name|..] == name
    ensures |barcodeData| > 0 && barcodeData[0] == '/' ==> p == barcodeData + ".png"
    ensures |barcodeData| == 0 || barcodeData[0] != '/' ==>
      var slash := if |folder| == 0 || folder[|folder| - 1] == '/' then 0 else 1;
      && |p| == |folder| + slash + |barcodeData| + 4
      && p[..|folder|] == folder
      && (slash == 1 ==> p[|folder|] == '/')
  {
    JoinPath(folder, barcodeData + ".png")
  }

  /** Distinct relative barcode values give distinct path strings. Files are
      identified by their path string throughout this model, so `x` and
      `./x`, which name one file on POSIX, are kept apart here. */
  lemma OutputPathInjective(folder: string, b1: string, b2: string)
    requires |b1| == 0 || b1[0] != '/'
    requires |b2| == 0 || b2[0] != '/'
    requires OutputPath(folder, b1) == OutputPath(folder, b2)
    ensures b1 == b2
  {
    var n1, n2 := b1 + ".png", b2 + ".png";
    assert |n1| > 0 && n1[0] != '/';
    assert |n2| > 0 && n2[0] != '/';
    var prefix := if |folder| == 0 || folder[|folder| - 1] == '/' then folder else folder + "/";
    assert OutputPath(folder, b1) == prefix + n1;
    assert OutputPath(folder, b2) == prefix + n2;
    assert n1 == (prefix + n1)[|prefix|..];
    assert n2 == (prefix + n2)[|prefix|..];
    assert b1 == n1[..|n1| - 4];
    assert b2 == n2[..|n2| - 4];
  }

  /** One input row: column name to value. */
  type Row = map<string, string>

  /** A composed label: a copy of the master template with the QR code and
      the barcode pasted at their boxes and the text drawn on it. */
  datatype Label = Label(
    template: Image,
    qr: Image,
    qrBox: seq<int>,
    barcode: Image,
    barcodeBox: seq<int>,
    text: seq<TextRun>)

  /** A label and the file it is written to. */
  datatype Output = Output(path: string, content: Label)

  const QrColumn := "qr_data"
  const BarcodeColumn := "barcode_data"
  const TextColumn := "multiline_text"

  /** Every step of `create_shipping_label` succeeds on `row`: the three
      columns are there, both encoders accept their payloads, both pastes
      are accepted, the text position unpacks into two parts and the file
      can be saved. */
  predicate StepsSucceed(gen: Generator, env: Env, row: Row)
  {
    && QrColumn in row && BarcodeColumn in row && TextColumn in row
    && env.qrCode(row[QrColumn], gen.settings.qrSize).Ok?
    && env.barcode(row[BarcodeColumn], gen.settings.barcodeSize).Ok?
    && env.pasteAccepts(env.qrCode(row[QrColumn], gen.settings.qrSize).value, gen.settings.qrPosition)
    && env.pasteAccepts(env.barcode(row[BarcodeColumn], gen.settings.barcodeSize).value,
                        gen.settings.barcodePosition)
    && |gen.settings.textPosition| == 2
    && env.canSave(OutputPath(gen.settings.outputFolder, row[BarcodeColumn]))
  }

  /** `create_shipping_label(row)`: read the three columns, decode the text,
      encode the QR code and the barcode, paste both onto a copy of the
      template, draw the text, and save under the barcode value. Each step
      that fails aborts the row. */
  function CreateLabel(gen: Generator, env: Env, row: Row): (r: Result<Output, Error>)
    ensures QrColumn !in row ==> r == Err(MissingColumn(QrColumn))
    ensures QrColumn in row && BarcodeColumn !in row ==> r == Err(MissingColumn(BarcodeColumn))
    ensures QrColumn in row && BarcodeColumn in row && TextColumn !in row ==>
      r == Err(MissingColumn(TextColumn))
    ensures r.Ok? ==>
      && QrColumn in row && BarcodeColumn in row && TextColumn in row
      && r.value.path == OutputPath(gen.settings.outputFolder, row[BarcodeColumn])
      && env.canSave(r.value.path)
      && r.value.content.template == gen.master
      && env.qrCode(row[QrColumn], gen.settings.qrSize) == Ok(r.value.content.qr)
      && env.barcode(row[BarcodeColumn], gen.settings.barcodeSize) == Ok(r.value.content.barcode)
      && r.value.content.qrBox == gen.settings.qrPosition
      && r.value.content.barcodeBox == gen.settings.barcodePosition
      && DrawMultilineText(Unescape(row[TextColumn]), gen.settings.textPosition, gen.lineHeight)
         == Ok(r.value.content.text)
    ensures |gen.settings.textPosition| != 2 ==> r.Err?
  {
    if QrColumn !in row then Err(MissingColumn(QrColumn))
    else if BarcodeColumn !in row then Err(MissingColumn(BarcodeColumn))
    else if TextColumn !in row then Err(MissingColumn(TextColumn))
    else
      var qrData := row[QrColumn];
      var barcodeData := row[BarcodeColumn];
      var text := Unescape(row[TextColumn]);
      match env.qrCode(qrData, gen.settings.qrSize)
      case Err(why) => Err(EncodingError(why))
      case Ok(qr) =>
        match env.barcode(barcodeData, gen.settings.barcodeSize)
        case Err(why) => Err(EncodingError(why))
        case Ok(barcode) =>
          if !env.pasteAccepts(qr, gen.settings.qrPosition) then Err(PasteError(gen.settings.qrPosition))
          else if !env.pasteAccepts(barcode, gen.settings.barcodePosition) then
            Err(PasteError(gen.settings.barcodePosition))
          else
            match DrawMultilineText(text, gen.settings.textPosition, gen.lineHeight)
            case Err(e) => Err(e)
            case Ok(runs) =>
              var path := OutputPath(gen.settings.outputFolder, barcodeData);
              if !env.canSave(path) then Err(SaveError(path))
              else Ok(Output(path, Label(gen.master, qr, gen.settings.qrPosition,
                                         barcode, gen.settings.barcodePosition, runs)))
  }

  /** A row succeeds exactly when every one of its steps does. */
  lemma CreateLabelSucceedsIff(gen: Generator, env: Env, row: Row)
    ensures CreateLabel(gen, env, row).Ok? <==> StepsSucceed(gen, env, row)
  {
  }

  /** A row fails with the error of its first failing step, in the order
      the steps are taken: columns, QR code, barcode, the two pastes,
      unpacking the text position, saving. */
  lemma CreateLabelFailsAtFirstFailingStep(gen: Generator, env: Env, row: Row)
    requires QrColumn in row && BarcodeColumn in row && TextColumn in row
    ensures var qr := env.qrCode(row[QrColumn], gen.settings.qrSize);
      qr.Err? ==> CreateLabel(gen, env, row) == Err(EncodingError(qr.error))
    ensures var qr := env.qrCode(row[QrColumn], gen.settings.qrSize);
      var bc := env.barcode(row[BarcodeColumn], gen.settings.barcodeSize);
      qr.Ok? && bc.Err? ==> CreateLabel(gen, env, row) == Err(EncodingError(bc.error))
    ensures var qr := env.qrCode(row[QrColumn], gen.settings.qrSize);
      var bc := env.barcode(row[BarcodeColumn], gen.settings.barcodeSize);
      qr.Ok? && bc.Ok? && !env.pasteAccepts(qr.value, gen.settings.qrPosition) ==>
        CreateLabel(gen, env, row) == Err(PasteError(gen.settings.qrPosition))
    ensures var qr := env.qrCode(row[QrColumn], gen.settings.qrSize);
      var bc := env.barcode(row[BarcodeColumn], gen.settings.barcodeSize);
      qr.Ok? && bc.Ok? && env.pasteAccepts(qr.value, gen.settings.qrPosition)
      && !env.pasteAccepts(bc.value, gen.settings.barcodePosition) ==>
        CreateLabel(gen, env, row) == Err(PasteError(gen.settings.barcodePosition))
    ensures var qr := env.qrCode(row[QrColumn], gen.settings.qrSize);
      var bc := env.barcode(row[BarcodeColumn], gen.settings.barcodeSize);
      qr.Ok? && bc.Ok? && env.pasteAccepts(qr.value, gen.settings.qrPosition)
      && env.pasteAccepts(bc.value, gen.settings.barcodePosition)
      && |gen.settings.textPosition| != 2 ==>
        CreateLabel(gen, env, row) == Err(UnpackError(|gen.settings.textPosition|))
    ensures var qr := env.qrCode(row[QrColumn], gen.settings.qrSize);
      var bc := env.barcode(row[BarcodeColumn], gen.settings.barcodeSize);
      var path := OutputPath(gen.settings.outputFolder, row[BarcodeColumn]);
      qr.Ok? && bc.Ok? && env.pasteAccepts(qr.value, gen.settings.qrPosition)
      && env.pasteAccepts(bc.value, gen.settings.barcodePosition)
      && |gen.settings.textPosition| == 2 && !env.canSave(path) ==>
        CreateLabel(gen, env, row) == Err(SaveError(path))
  {
  }
}

=== FILE: numerals.dfy ===
/** Python's `int(s)` on a string, in base 10, and its inverse `str(n)`.
    Accepted: surrounding whitespace, an optional `+` or `-`, and a non-empty
    run of ASCII digits in which single underscores may separate digits. */
module Numerals {
  import opened Wrappers
  import opened Strings

  predicate IsDigit(c: char)
  {
    '0' <= c <= '9'
  }

  predicate AllDigits(s: string)
  {
    forall i :: 0 <= i < |s| ==> IsDigit(s[i])
  }

  function DigitValue(c: char): nat
    requires IsDigit(c)
  {
    c as int - '0' as int
  }

  function DigitChar(d: nat): (c: char)
    requires d < 10
    ensures IsDigit(c) && DigitValue(c) == d
  {
    ('0' as int + d) as char
  }

  /** Value of a string of decimal digits, most significant first. */
  function DigitsValue(ds: string): nat
    requires AllDigits(ds)
  {
    if |ds| == 0 then 0
    else 10 * DigitsValue(ds[..|ds| - 1]) + DigitValue(ds[|ds| - 1])
  }

  /** The digits-and-underscores body `int()` accepts: starts and ends with a
      digit, and no two underscores are adjacent. */
  predicate IsDigitRun(b: string)
  {
    && |b| > 0
    && IsDigit(b[0])
    && IsDigit(b[|b| - 1])
    && (forall i :: 0 <= i < |b| ==> IsDigit(b[i]) || b[i] == '_')
    && (forall i :: 0 <= i < |b| - 1 ==> !(b[i] == '_' && b[i + 1] == '_'))
  }

  /** The digits of a run, underscores dropped. */
  function DropUnderscores(b: string): (ds: string)
    requires forall i :: 0 <= i < |b| ==> IsDigit(b[i]) || b[i] == '_'
    ensures AllDigits(ds)
    ensures AllDigits(b) ==> ds == b
  {
    if |b| == 0 then ""
    else (if b[0] == '_' then "" else [b[0]]) + DropUnderscores(b[1..])
  }

  /** `int(s)`: `None` stands for the ValueError Python raises. A field it
      accepts holds a digit, and otherwise only digits, signs, underscores
      and whitespace. */
  function ParseInt(s: string): (r: Option<int>)
    ensures r.Some? ==> exists i :: 0 <= i < |s| && IsDigit(s[i])
    ensures r.Some? ==> forall i :: 0 <= i < |s| ==> NumeralChar(s[i]) || IsSpace(s[i])
  {
    var r := ParseStripped(Strip(s));
    if r.Some? then
      StrippedNumeral(Strip(s));
      StripKeepsDigit(s);
      StripKeepsNumeralChars(s);
      r
    else r
  }

  /** `int()` on a string that has no surrounding whitespace. */
  function ParseStripped(t: string): Option<int>
  {
    var negative := |t| > 0 && t[0] == '-';
    var body := if |t| > 0 && (t[0] == '-' || t[0] == '+') then t[1..] else t;
    if IsDigitRun(body) then
      var magnitude: int := DigitsValue(DropUnderscores(body));
      Some(if negative then -magnitude else magnitude)
    else None
  }

  /** Decimal digits of a natural number, no leading zeros. */
  function ShowNat(n: nat): (s: string)
    ensures |s| > 0 && AllDigits(s)
    ensures DigitsValue(s) == n
  {
    if n < 10 then [DigitChar(n)]
    else
      var s := ShowNat(n / 10) + [DigitChar(n % 10)];
      assert s[..|s| - 1] == ShowNat(n / 10);
      s
  }

  /** `str(n)` */
  function Show(n: int): string
  {
    if n < 0 then "-" + ShowNat(-n) else ShowNat(n)
  }

  /** `int()` accepts whatever `str()` produces, even with whitespace around
      it, and gives the number back. */
  lemma ParseShow(w1: string, n: int, w2: string)
    requires AllSpace(w1) && AllSpace(w2)
    ensures ParseInt(w1 + Show(n) + w2) == Some(n)
  {
    var t := Show(n);
    assert !IsSpace(t[0]) && !IsSpace(t[|t| - 1]);
    StripPadded(w1, t, w2);
    ParseStrippedShow(n);
  }

  /** `int(str(n)) == n` */
  lemma ParseShowExact(n: int)
    ensures ParseInt(Show(n)) == Some(n)
  {
    var t := Show(n);
    assert "" + t + "" == t;
    ParseShow("", n, "");
  }

  lemma ParseStrippedShow(n: int)
    ensures ParseStripped(Show(n)) == Some(n)
  {
    var m: nat := if n < 0 then -n else n;
    var digits := ShowNat(m);
    DigitRunOfDigits(digits);
    if n < 0 {
      var t := "-" + digits;
      assert Show(n) == t;
      assert t[0] == '-' && t[1..] == digits;
    } else {
      assert Show(n) == digits;
      assert digits[0] != '-' && digits[0] != '+';
    }
  }

  /** A plain run of digits is accepted unchanged. */
  lemma DigitRunOfDigits(ds: string)
    requires |ds| > 0 && AllDigits(ds)
    ensures IsDigitRun(ds)
    ensures DropUnderscores(ds) == ds
  {
  }

  /** `int()` rejects any field holding a character that is not a digit, a
      sign, an underscore or whitespace, and any field with no digit at all. */
  lemma ParseIntRejects(s: string)
    requires ParseInt(s).Some?
    ensures exists i :: 0 <= i < |s| && IsDigit(s[i])
    ensures forall i :: 0 <= i < |s| ==> NumeralChar(s[i]) || IsSpace(s[i])
  {
    StrippedNumeral(Strip(s));
    StripKeepsDigit(s);
    StripKeepsNumeralChars(s);
  }

  /** A digit left after stripping was a digit of the field. */
  lemma StripKeepsDigit(s: string)
    ensures (exists j :: 0 <= j < |Strip(s)| && IsDigit(Strip(s)[j])) ==>
      exists i :: 0 <= i < |s| && IsDigit(s[i])
  {
    var t := Strip(s);
    var k := StripSlice(s);
    if exists j :: 0 <= j < |t| && IsDigit(t[j]) {
      var j :| 0 <= j < |t| && IsDigit(t[j]);
      assert s[k + j] == t[j];
    }
  }

  /** If stripping leaves only numeral characters, the field held only those
      and whitespace. */
  lemma StripKeepsNumeralChars(s: string)
    ensures (forall j :: 0 <= j < |Strip(s)| ==> NumeralChar(Strip(s)[j])) ==>
      forall i :: 0 <= i < |s| ==> NumeralChar(s[i]) || IsSpace(s[i])
  {
    var t := Strip(s);
    var k := StripSlice(s);
    if forall j :: 0 <= j < |t| ==> NumeralChar(t[j]) {
      forall i | 0 <= i < |s|
        ensures NumeralChar(s[i]) || IsSpace(s[i])
      {
        if k <= i < k + |t| {
          assert t[i - k] == s[i];
        }
      }
    }
  }

  predicate NumeralChar(c: char)
  {
    IsDigit(c) || c == '_' || c == '+' || c == '-'
  }

  lemma StrippedNumeral(t: string)
    requires ParseStripped(t).Some?
    ensures exists j :: 0 <= j < |t| && IsDigit(t[j])
    ensures forall i :: 0 <= i < |t| ==> NumeralChar(t[i])
  {
    var off := if |t| > 0 && (t[0] == '-' || t[0] == '+') then 1 else 0;
    var body := t[off..];
    assert IsDigitRun(body);
    assert t[off] == body[0];
    forall i | 0 <= i < |t|
      ensures NumeralChar(t[i])
    {
      if i >= off {
        assert t[i] == body[i - off];
      }
    }
  }
}

=== FILE: sequences.dfy ===
/** Small facts about sequence concatenation and slicing. Each holds for all
    arguments, so a proof can call it without a precondition to check. */
module Sequences {

  /** `[x] + s` starts with `x`, and element `i` of it is element `i - 1` of `s`. */
  lemma ConsShift<T>(x: T, s: seq<T>)
    ensures ([x] + s)[0] == x
    ensures ([x] + s)[1..] == s
    ensures forall i :: 1 <= i < |[x] + s| ==> ([x] + s)[i] == s[i - 1]
  {
  }

  /** Element `i` of a non-empty `s` is element `i - 1` of its tail. */
  lemma TailShift<T>(s: seq<T>)
    ensures forall i :: 1 <= i < |s| ==> s[i] == s[1..][i - 1]
  {
  }

  /** A non-empty sequence is its head followed by its tail. */
  lemma HeadTail<T>(s: seq<T>)
    ensures |s| > 0 ==> s == [s[0]] + s[1..]
  {
  }

  lemma Assoc<T>(a: seq<T>, b: seq<T>, c: seq<T>)
    ensures a + b + c == a + (b + c)
  {
  }

  /** Dropping `i` elements leaves element `i` in front, and dropping one more
      leaves the tail of that; dropping everything leaves nothing. */
  lemma Drop<T>(s: seq<T>, i: nat)
    ensures i < |s| ==> s[i..][0] == s[i] && s[i..][1..] == s[i + 1..]
    ensures i == |s| ==> s[i..] == []
  {
  }

  /** Appending to a non-empty sequence keeps its head and appends to its tail. */
  lemma AppendFront<T>(s: seq<T>, t: seq<T>)
    ensures |s| > 0 ==> (s + t)[0] == s[0] && (s + t)[1..] == s[1..] + t
  {
  }
}

=== FILE: strings.dfy ===
/** Python `str` operations the label generator relies on: `split` on a
    one-character separator, its inverse `join`, the whitespace trimming
    `int()` does before reading digits, and ASCII `lower`. */
module Strings {
  import opened Sequences

  /** Number of times `c` occurs in `s`. */
  function Occurrences(s: string, c: char): (n: nat)
    ensures n <= |s|
    ensures n == 0 <==> c !in s
  {
    if |s| == 0 then 0
    else (if s[0] == c then 1 else 0) + Occurrences(s[1..], c)
  }

  /** `s.split(sep)`: the maximal separator-free pieces between occurrences of
      `sep`, empty pieces included. */
  function Split(s: string, sep: char): (parts: seq<string>)
    ensures |parts| == Occurrences(s, sep) + 1
    ensures forall i :: 0 <= i < |parts| ==> sep !in parts[i]
  {
    if |s| == 0 then [""]
    else
      var rest := Split(s[1..], sep);
      if s[0] == sep then [""] + rest
      else [[s[0]] + rest[0]] + rest[1..]
  }

  /** `sep.join(parts)`. */
  function Join(parts: seq<string>, sep: char): string
  {
    if |parts| == 0 then ""
    else if |parts| == 1 then parts[0]
    else parts[0] + [sep] + Join(parts[1..], sep)
  }

  /** Splitting loses nothing: joining the pieces gives back the string. */
  lemma {:induction false} JoinSplit(s: string, sep: char)
    ensures Join(Split(s, sep), sep) == s
  {
    if |s| > 0 {
      var rest := Split(s[1..], sep);
      JoinSplit(s[1..], sep);
      HeadTail(s);
      if s[0] == sep {
        ConsShift("", rest);
      } else {
        var first := [s[0]] + rest[0];
        ConsShift(first, rest[1..]);
        if |rest| > 1 {
          Assoc(first, [sep], Join(rest[1..], sep));
          Assoc([s[0]], rest[0], [sep] + Join(rest[1..], sep));
          Assoc(rest[0], [sep], Join(rest[1..], sep));
        }
      }
    }
  }

  /** A separator-free prefix is glued onto the first piece of what follows. */
  lemma {:induction false} SplitFreePrefix(p: string, t: string, sep: char)
    requires sep !in p
    ensures Split(p + t, sep) == [p + Split(t, sep)[0]] + Split(t, sep)[1..]
  {
    var parts := Split(t, sep);
    if |p| > 0 {
      SplitFreePrefix(p[1..], t, sep);
      Assoc([p[0]], p[1..], t);
      Assoc([p[0]], p[1..], parts[0]);
      HeadTail(p);
      ConsShift(p[0], p[1..] + t);
    } else {
      assert p + t == t;
      assert p + parts[0] == parts[0];
      HeadTail(parts);
    }
  }

  /** Joining separator-free pieces and splitting again gives the pieces back,
      so `Split` is exactly the inverse of `Join`. */
  lemma {:induction false} SplitJoin(parts: seq<string>, sep: char)
    requires |parts| > 0
    requires forall i :: 0 <= i < |parts| ==> sep !in parts[i]
    ensures Split(Join(parts, sep), sep) == parts
  {
    if |parts| == 1 {
      SplitFreePrefix(parts[0], "", sep);
      assert parts[0] + "" == parts[0];
    } else {
      var tail := Join(parts[1..], sep);
      SplitJoin(parts[1..], sep);
      SplitFreePrefix(parts[0], [sep] + tail, sep);
      assert ([sep] + tail)[1..] == tail;
      assert Split([sep] + tail, sep) == [""] + parts[1..];
      assert parts[0] + [sep] + tail == parts[0] + ([sep] + tail);
      assert parts[0] + "" == parts[0];
      assert parts == [parts[0]] + parts[1..];
    }
  }

  /** The ASCII whitespace `int()` skips around a numeral: space and
      `\t \n \v \f \r`. Unlike `str.strip()`, it keeps the separators
      0x1C..0x1F. */
  predicate IsSpace(c: char)
  {
    c == ' ' || (9 <= c as int <= 13)
  }

  predicate AllSpace(s: string)
  {
    forall i :: 0 <= i < |s| ==> IsSpace(s[i])
  }

  /** Leading whitespace skipped. */
  function TrimStart(s: string): (r: string)
    ensures |r| <= |s| && r == s[|s| - |r|..]
    ensures forall i :: 0 <= i < |s| - |r| ==> IsSpace(s[i])
    ensures |r| > 0 ==> !IsSpace(r[0])
  {
    if |s| > 0 && IsSpace(s[0]) then TrimStart(s[1..]) else s
  }

  /** Trailing whitespace skipped. */
  function TrimEnd(s: string): (r: string)
    ensures |r| <= |s| && r == s[..|r|]
    ensures forall i :: |r| <= i < |s| ==> IsSpace(s[i])
    ensures |r| > 0 ==> !IsSpace(r[|r| - 1])
  {
    if |s| > 0 && IsSpace(s[|s| - 1]) then TrimEnd(s[..|s| - 1]) else s
  }

  /** Whitespace skipped at both ends, as `int()` does before reading the
      numeral. */
  function Strip(s: string): string
  {
    TrimEnd(TrimStart(s))
  }

  /** `Strip` keeps a contiguous middle slice and drops only whitespace
      around it. */
  lemma StripSlice(s: string) returns (k: nat)
    ensures k + |Strip(s)| <= |s|
    ensures s[k..k + |Strip(s)|] == Strip(s)
    ensures forall i :: 0 <= i < k ==> IsSpace(s[i])
    ensures forall i :: k + |Strip(s)| <= i < |s| ==> IsSpace(s[i])
  {
    var t0 := TrimStart(s);
    k := |s| - |t0|;
    assert t0 == s[k..];
    assert Strip(s) == TrimEnd(s[k..]);
    TrimEndSlice(s, k);
  }

  /** Trimming the end of a suffix `s[k..]` keeps a slice of `s` that starts
      at `k`, and drops only whitespace after it. */
  lemma TrimEndSlice(s: string, k: nat)
    requires k <= |s|
    ensures k + |TrimEnd(s[k..])| <= |s|
    ensures s[k..k + |TrimEnd(s[k..])|] == TrimEnd(s[k..])
    ensures forall i :: k + |TrimEnd(s[k..])| <= i < |s| ==> IsSpace(s[i])
  {
    var t0 := s[k..];
    var t := TrimEnd(t0);
    assert t == t0[..|t|];
    assert t0[..|t|] == s[k..k + |t|];
    forall i | k + |t| <= i < |s|
      ensures IsSpace(s[i])
    {
      assert t0[i - k] == s[i];
    }
  }

  /** Surrounding whitespace is all that `Strip` removes. */
  lemma {:induction false} StripPadded(w1: string, t: string, w2: string)
    requires AllSpace(w1) && AllSpace(w2)
    requires |t| > 0 && !IsSpace(t[0]) && !IsSpace(t[|t| - 1])
    ensures Strip(w1 + t + w2) == t
  {
    TrimStartPadded(w1, t, w2);
    TrimEndPadded(t, w2);
  }

  lemma {:induction false} TrimStartPadded(w: string, t: string, x: string)
    requires AllSpace(w)
    requires |t| > 0 && !IsSpace(t[0])
    ensures TrimStart(w + t + x) == t + x
  {
    if |w| > 0 {
      assert (w + t + x)[0] == w[0];
      assert (w + t + x)[1..] == w[1..] + t + x;
      TrimStartPadded(w[1..], t, x);
    } else {
      assert w + t + x == t + x;
      assert (t + x)[0] == t[0];
    }
  }

  lemma {:induction false} TrimEndPadded(t: string, w: string)
    requires AllSpace(w)
    requires |t| > 0 && !IsSpace(t[|t| - 1])
    ensures TrimEnd(t + w) == t
  {
    if |w| > 0 {
      assert (t + w)[..|t + w| - 1] == t + w[..|w| - 1];
      TrimEndPadded(t, w[..|w| - 1]);
    } else {
      assert t + w == t;
    }
  }

  /** ASCII lower-casing of one character. */
  function LowerChar(c: char): char
  {
    if 'A' <= c <= 'Z' then (c as int + 32) as char else c
  }

  /** `s.lower()` restricted to ASCII letters. */
  function Lower(s: string): (r: string)
    ensures |r| == |s|
    ensures forall i :: 0 <= i < |s| ==> r[i] == LowerChar(s[i])
  {
    if |s| == 0 then "" else [LowerChar(s[0])] + Lower(s[1..])
  }

  /** Lower-casing twice is lower-casing once. */
  lemma LowerIdempotent(s: string)
    ensures Lower(Lower(s)) == Lower(s)
  {
  }
}

=== FILE: text.dfy ===
/** Text preparation for a label: the two-character escape backslash-`n` in
    the input field becomes a line break, and `draw_multiline_text` places
    each line below the previous one. Glyph rendering is not modelled: a draw
    call is recorded as the point it is drawn at and the line it draws. */
module Text {
  import opened Wrappers
  import opened Strings
  import opened Errors
  import opened Sequences

  /** True when `s` holds a backslash immediately followed by `n`. */
  predicate HasEscape(s: string)
  {
    exists i :: 0 <= i < |s| - 1 && s[i] == '\\' && s[i + 1] == 'n'
  }

  /** `s.replace('\\n', '\n')`: a left-to-right scan that turns each
      non-overlapping backslash-`n` pair into a newline and copies every other
      character. */
  function Unescape(s: string): (r: string)
    ensures !HasEscape(r)
    ensures |s| > 0 ==> |r| > 0 && (r[0] == s[0] || r[0] == '\n')
    ensures |r| <= |s|
  {
    if |s| >= 2 && s[0] == '\\' && s[1] == 'n' then
      var rest := Unescape(s[2..]);
      var r := "\n" + rest;
      assert forall i :: 1 <= i < |r| ==> r[i] == rest[i - 1];
      r
    else if |s| == 0 then ""
    else
      var rest := Unescape(s[1..]);
      var r := [s[0]] + rest;
      assert forall i :: 1 <= i < |r| ==> r[i] == rest[i - 1];
      r
  }

  /** The inverse direction: how a label text with line breaks is written
      into the one-line input field. */
  function Escape(t: string): (s: string)
    ensures '\n' !in s
    ensures |t| > 0 ==> |s| > 0 && s[0] == (if t[0] == '\n' then '\\' else t[0])
  {
    if |t| == 0 then ""
    else if t[0] == '\n' then "\\n" + Escape(t[1..])
    else [t[0]] + Escape(t[1..])
  }

  /** Decoding recovers any text that does not itself contain a literal
      backslash-`n`. */
  lemma {:induction false} UnescapeEscape(t: string)
    requires !HasEscape(t)
    ensures Unescape(Escape(t)) == t
  {
    if |t| > 0 {
      var tail := t[1..];
      assert !HasEscape(tail);
      UnescapeEscape(tail);
      var e := Escape(tail);
      if t[0] == '\n' {
        assert Escape(t) == "\\n" + e;
        assert ("\\n" + e)[2..] == e;
      } else {
        assert Escape(t) == [t[0]] + e;
        assert ([t[0]] + e)[1..] == e;
        if t[0] == '\\' && |tail| > 0 {
          assert t[1] != 'n';
        }
        assert t == [t[0]] + tail;
      }
    }
  }

  /** Encoding undoes decoding for any field without raw line breaks, so
      every backslash-`n` pair and nothing else becomes a newline. */
  lemma {:induction false} EscapeUnescape(s: string)
    requires '\n' !in s
    ensures Escape(Unescape(s)) == s
  {
    if |s| >= 2 && s[0] == '\\' && s[1] == 'n' {
      assert '\n' !in s[2..];
      EscapeUnescape(s[2..]);
      var u := Unescape(s[2..]);
      assert Unescape(s) == "\n" + u;
      assert ("\n" + u)[1..] == u;
      assert s == "\\n" + s[2..];
    } else if |s| > 0 {
      assert '\n' !in s[1..];
      EscapeUnescape(s[1..]);
      var u := Unescape(s[1..]);
      assert Unescape(s) == [s[0]] + u;
      assert ([s[0]] + u)[1..] == u;
      assert s == [s[0]] + s[1..];
    }
  }

  /** A text without any backslash-`n` pair is left exactly as it is. */
  lemma {:induction false} UnescapeIdentity(s: string)
    requires !HasEscape(s)
    ensures Unescape(s) == s
  {
    if |s| > 0 {
      assert !HasEscape(s[1..]);
      UnescapeIdentity(s[1..]);
      if |s| >= 2 && s[0] == '\\' {
        assert s[1] != 'n';
      }
      assert s == [s[0]] + s[1..];
    }
  }

  /** The two ways decoding proceeds from the front of a field. */
  lemma UnescapeFront(s: string)
    requires |s| > 0
    ensures |s| >= 2 && s[0] == '\\' && s[1] == 'n' ==> Unescape(s) == "\n" + Unescape(s[2..])
    ensures !(|s| >= 2 && s[0] == '\\' && s[1] == 'n') ==> Unescape(s) == [s[0]] + Unescape(s[1..])
  {
  }

  /** Decoding works piece by piece: the decoding of a concatenation is the
      concatenation of the decodings, unless a backslash ending the first
      piece and an `n` starting the second form a pair across the seam. */
  lemma {:induction false} UnescapeConcat(a: string, b: string)
    requires !(|a| > 0 && a[|a| - 1] == '\\' && |b| > 0 && b[0] == 'n')
    ensures Unescape(a + b) == Unescape(a) + Unescape(b)
    decreases |a|
  {
    if |a| == 0 {
      assert a + b == b;
    } else if |a| >= 2 && a[0] == '\\' && a[1] == 'n' {
      ConcatAfterPair(a, b);
    } else {
      ConcatAfterChar(a, b);
    }
  }

  lemma {:induction false} ConcatAfterPair(a: string, b: string)
    requires |a| >= 2 && a[0] == '\\' && a[1] == 'n'
    requires !(a[|a| - 1] == '\\' && |b| > 0 && b[0] == 'n')
    ensures Unescape(a + b) == Unescape(a) + Unescape(b)
    decreases |a|, 0
  {
    var ab, tail := a + b, a[2..];
    assert ab[0] == '\\' && ab[1] == 'n';
    assert ab[2..] == tail + b;
    assert |tail| > 0 ==> tail[|tail| - 1] == a[|a| - 1];
    UnescapeConcat(tail, b);
    UnescapeFront(a);
    UnescapeFront(ab);
    Assoc("\n", Unescape(tail), Unescape(b));
  }

  lemma {:induction false} ConcatAfterChar(a: string, b: string)
    requires |a| > 0 && !(|a| >= 2 && a[0] == '\\' && a[1] == 'n')
    requires !(a[|a| - 1] == '\\' && |b| > 0 && b[0] == 'n')
    ensures Unescape(a + b) == Unescape(a) + Unescape(b)
    decreases |a|, 0
  {
    var ab, tail := a + b, a[1..];
    NoPairAtSeamFront(a, b);
    assert |tail| > 0 ==> tail[|tail| - 1] == a[|a| - 1];
    UnescapeConcat(tail, b);
    UnescapeFront(a);
    UnescapeFront(ab);
    Assoc([a[0]], Unescape(tail), Unescape(b));
  }

  /** When `a` does not start with a pair and no pair straddles the seam,
      `a + b` does not start with a pair either. */
  lemma NoPairAtSeamFront(a: string, b: string)
    requires |a| > 0 && !(|a| >= 2 && a[0] == '\\' && a[1] == 'n')
    requires !(a[|a| - 1] == '\\' && |b| > 0 && b[0] == 'n')
    ensures (a + b)[0] == a[0]
    ensures (a + b)[1..] == a[1..] + b
    ensures !(|a + b| >= 2 && (a + b)[0] == '\\' && (a + b)[1] == 'n')
  {
    var ab := a + b;
    if a[0] == '\\' && |ab| >= 2 {
      if |a| >= 2 {
        assert ab[1] == a[1];
      } else {
        assert ab[1] == b[0];
      }
    }
  }

  /** A real line break in a field (a quoted CSV value may hold one) is kept
      as it is, and both sides of it are decoded independently. */
  lemma UnescapeKeepsLineBreaks(a: string, b: string)
    ensures Unescape(a + "\n" + b) == Unescape(a) + "\n" + Unescape(b)
  {
    var nl: string := "\n";
    var nb := nl + b;
    UnescapeFront(nl);
    assert nl[1..] == "";
    assert Unescape(nl) == nl;
    UnescapeConcat(nl, b);
    assert nb[0] == '\n';
    UnescapeConcat(a, nb);
    assert a + nl + b == a + nb;
  }

  /** One `draw.text((x, y), line, ...)` call. */
  datatype TextRun = TextRun(x: int, y: int, line: string)

  /** The loop of `draw_multiline_text` from a given pen position: each line
      is drawn at the current `y`, which then advances by `lineHeight`. */
  function Layout(lines: seq<string>, x: int, y: int, lineHeight: int): (runs: seq<TextRun>)
    ensures |runs| == |lines|
    ensures forall i :: 0 <= i < |lines| ==> runs[i] == TextRun(x, y + i * lineHeight, lines[i])
  {
    if |lines| == 0 then []
    else
      var rest := Layout(lines[1..], x, y + lineHeight, lineHeight);
      var runs := [TextRun(x, y, lines[0])] + rest;
      assert forall i :: 1 <= i < |lines| ==>
        runs[i] == rest[i - 1] && y + lineHeight + (i - 1) * lineHeight == y + i * lineHeight;
      runs
  }

  /** `draw_multiline_text(draw, text, position, font, line_height)`.
      Unpacking `x, y = position` fails unless the position has exactly two
      parts; there is no wrapping or clipping, so lines may run off the
      image. */
  function DrawMultilineText(text: string, position: seq<int>, lineHeight: int): (r: Result<seq<TextRun>, Error>)
    ensures r.Err? <==> |position| != 2
    ensures r.Err? ==> r.error == UnpackError(|position|)
    ensures r.Ok? ==> |r.value| == Occurrences(text, '\n') + 1
    ensures r.Ok? ==> forall i :: 0 <= i < |r.value| ==>
      && r.value[i].x == position[0]
      && r.value[i].y == position[1] + i * lineHeight
      && '\n' !in r.value[i].line
  {
    if |position| != 2 then Err(UnpackError(|position|))
    else Ok(Layout(Split(text, '\n'), position[0], position[1], lineHeight))
  }

  /** The lines drawn, in drawing order. */
  function LinesOf(runs: seq<TextRun>): (lines: seq<string>)
    ensures |lines| == |runs|
    ensures forall i :: 0 <= i < |runs| ==> lines[i] == runs[i].line
  {
    if |runs| == 0 then [] else [runs[0].line] + LinesOf(runs[1..])
  }

  /** Nothing of the text is lost or reordered: the drawn lines, joined by
      line breaks, are the text. */
  lemma DrawnLinesRejoin(text: string, position: seq<int>, lineHeight: int)
    requires |position| == 2
    ensures Join(LinesOf(DrawMultilineText(text, position, lineHeight).value), '\n') == text
  {
    var runs := DrawMultilineText(text, position, lineHeight).value;
    assert LinesOf(runs) == Split(text, '\n');
    JoinSplit(text, '\n');
  }
}

=== FILE: wrappers.dfy ===
/** Failure-compatible datatypes used throughout the model. main.py signals
    every failure by raising an exception; here each such exception becomes an
    `Err` value that the caller propagates with `:-`. */
module Wrappers {

  /** A value that may be absent. */
  datatype Option<+T> = None | Some(value: T)

  /** The outcome of an operation that may fail with an error of type `E`. */
  datatype Result<+T, +E> = Ok(value: T) | Err(error: E) {

    predicate IsFailure() {
      Err?
    }

    function PropagateFailure<U>(): Result<U, E>
      requires Err?
    {
      Err(error)
    }

    function Extract(): T
      requires Ok?
    {
      value
    }
  }

  /** `tuple(map(f, xs))` for an `f` that may raise: every element is
      converted in order and the first one `f` rejects is reported; no partial
      result is returned. */
  function MapAll<A, B>(f: A -> Option<B>, xs: seq<A>): (r: Result<seq<B>, A>)
    ensures r.Ok? <==> forall i :: 0 <= i < |xs| ==> f(xs[i]).Some?
    ensures r.Ok? ==> |r.value| == |xs|
    ensures r.Ok? ==> forall i :: 0 <= i < |xs| ==> f(xs[i]) == Some(r.value[i])
    ensures r.Err? ==> exists k :: 0 <= k < |xs| && r.error == xs[k] && FirstRejected(f, xs, k)
  {
    if |xs| == 0 then Ok([])
    else
      match f(xs[0])
      case None =>
        assert FirstRejected(f, xs, 0);
        Err(xs[0])
      case Some(y) =>
        var rest := MapAll(f, xs[1..]);
        if rest.Err? then
          FirstRejectedShift(f, xs, rest.error);
          Err(rest.error)
        else
          assert forall i :: 1 <= i < |xs| ==> xs[i] == xs[1..][i - 1];
          Ok([y] + rest.value)
  }

  /** `xs[k]` is the first element `f` rejects. */
  predicate FirstRejected<A, B>(f: A -> Option<B>, xs: seq<A>, k: nat)
    requires k < |xs|
  {
    f(xs[k]).None? && forall i :: 0 <= i < k ==> f(xs[i]).Some?
  }

  lemma FirstRejectedShift<A, B>(f: A -> Option<B>, xs: seq<A>, x: A)
    requires |xs| > 0 && f(xs[0]).Some?
    requires exists k :: 0 <= k < |xs| - 1 && x == xs[1..][k] && FirstRejected(f, xs[1..], k)
    ensures exists k :: 0 <= k < |xs| && x == xs[k] && FirstRejected(f, xs, k)
  {
    var k :| 0 <= k < |xs| - 1 && x == xs[1..][k] && FirstRejected(f, xs[1..], k);
    forall i | 0 < i < k + 1
      ensures f(xs[i]).Some?
    {
      assert xs[1..][i - 1] == xs[i];
    }
    assert FirstRejected(f, xs, k + 1);
  }
}
